=== FILE: README.md ===
# BitTorrent client core, modelled in Dafny

This project models the byte-level core of a small command-line BitTorrent
client. The client has three jobs:

- It reads a metainfo (`.torrent`) file and prints its piece hashes.
- It builds the tracker announce URL and decodes the compact peer list the
  tracker returns.
- It performs the 68-byte peer handshake and reports the remote peer id.

The model lifts that logic out of the command handlers into pure functions on
byte and character sequences:

- `Models` holds the record types: `TorrentInfo`, `TorrentFile`,
  `TrackerResponse` and `TrackerRequest`. Rust's `u8`, `u16` and `u64` become
  subset types of `int`, so every stored value is within its Rust range.
  `pieces` and `peers` stay raw byte sequences.
- `InfoHash` is the info hash: SHA-1 of the serialised `info` record. It has
  two renderings, lowercase hex (`Hex`) for display and percent-encoded raw
  bytes (`Percent`) for the URL.
- `Pieces` cuts the `pieces` blob into 20-byte hashes with Rust's
  `chunks(20)`. `Peers` decodes 6-byte compact peers with `chunks_exact(6)`.
  Both iterators are modelled in `Slices`.
- `Tracker` derives the announce request, serialises it to a query string
  (`Query`, `Percent`, `Decimal`), and assembles the announce URL.
- `Handshake` builds the handshake message, reads the 68-byte reply, and
  takes the remote peer id from it.

Every encoder except the UTF-8 encoding of text (`Bytes.Utf8`, which the
model only ever applies to the peer id) has a decoder written independently
of it, and the proofs connect each pair:

- a reader that gets the `info` record back from its fields by key;
- hex and percent decoders;
- a form decoder;
- a decimal parser;
- a query-string reader that splits at `&` and then at the first `=`;
- a compact-peer encoder;
- a strict handshake parser.

SHA-1 and the bencode serialiser are library code. They enter as function
parameters (`Sha1`, `Serializer`). The only fact assumed about SHA-1 is that
its result is 20 bytes long.

The model follows the code where it is more permissive than the protocol:

- A compact peer list whose length is not a multiple of 6 loses its remainder
  without error.
- A `pieces` blob whose length is not a multiple of 20 yields a short last
  hash rather than a `TruncatedPieceTable` error.
- The handshake reply's protocol-name and reserved bytes are never checked.
  `Handshake.Parse` is the strict reading, given beside the lenient one as a
  reference.
- `left` is the file's whole length.

## Model

| member | source | states |
|---|---|---|
| Models.InfoFields | src/models.rs:3-11 | the serialiser is given four fields in declaration order: `length`, `name`, `piece length` (two words, with a space) and `pieces` as raw bytes, each carrying its record value |
| Models.InfoFieldsRoundTrip | src/models.rs:3-11 | reading the fields back by key gives the same `info` record, so the field view loses nothing |
| Models.InfoFieldsInjective | src/models.rs:3-11 | two different `info` records never give the serialiser the same fields |
| InfoHash.Raw | src/main.rs:24-27 | computes the digest only and has no contract of its own; `InfoHash.RawIgnoresAnnounce`, `InfoHash.HexForm` and `InfoHash.UrlForm` state what it is |
| InfoHash.HexForm | src/main.rs:23-29 | the printed info hash is 40 lowercase hex digits that decode to the 20-byte digest of the serialised `info` |
| InfoHash.UrlForm | src/main.rs:31-37 | the URL info hash has 20 to 60 characters, all letters, digits or `%`, and percent-decodes to the raw digest |
| InfoHash.UrlFormIsNotHexText | src/main.rs:31-37 | the URL form encodes the digest bytes, not the hex text: it differs from the percent-encoding of the printed form |
| InfoHash.RawIgnoresAnnounce | src/main.rs:101-104 | the digest depends on `info` alone: changing the tracker URL leaves it unchanged |
| Hex.Encode | src/main.rs:28 | `hex::encode` gives two lowercase hex digits per byte |
| Hex.DecodeEncode | src/main.rs:28 | decoding the hex rendering gives back the bytes |
| Hex.EncodeInjective | src/main.rs:28 | different byte strings have different hex renderings |
| Percent.Escape | src/main.rs:36 | an escaped byte is `%` and two uppercase hex digits, high nibble first, which read back as the byte |
| Percent.EncodeByte | src/main.rs:36 | a byte is written as one character exactly when it is an ASCII letter or digit, and then as itself; any other byte is written as its uppercase escape |
| Percent.Encode | src/main.rs:36 | `percent_encode(.., NON_ALPHANUMERIC)` gives one to three characters per byte, all letters, digits or `%` |
| Percent.EncodeAppend | src/main.rs:36 | the encoding works byte by byte: encoding a concatenation concatenates the encodings |
| Percent.EncodeCons | src/main.rs:36 | a leading byte is encoded on its own, ahead of the encoding of the rest |
| Percent.EncodeKeepsLength | src/main.rs:36 | the encoding is exactly as long as the input if and only if every byte is a letter or digit |
| Percent.DecodeEncode | src/main.rs:36 | percent-decoding the encoding gives back the raw bytes |
| Percent.FormEncodeByte | src/main.rs:82 | the form serialiser writes a letter, digit or one of `*-._` as itself, a space as `+`, and any other byte as its uppercase escape; it writes one character exactly for the first two kinds |
| Percent.FormEncodeBytes | src/main.rs:82 | form-encoding bytes gives one to three characters per byte, all letters, digits or one of `*-._+%` |
| Percent.FormEncodeAppend | src/main.rs:82 | the form serialiser works byte by byte: serialising a concatenation concatenates the serialisations |
| Percent.FormEncodeCons | src/main.rs:82 | a leading byte is serialised on its own, ahead of the rest |
| Percent.FormEncodeKeepsLength | src/main.rs:82 | the serialisation is exactly as long as the input if and only if every byte is unreserved or a space |
| Bytes.Utf8 | src/main.rs:82 | a string's UTF-8 bytes, the view of a Rust `String` the form serialiser encodes: one to four bytes per character |
| Bytes.Utf8OfAscii | src/main.rs:74 | on ASCII text, such as the fixed peer id, the UTF-8 bytes are the character codes, one per character |
| Percent.FormEncode | src/main.rs:82 | text is serialised through its UTF-8 bytes, into letters, digits and `*-._+%` only; `Percent.FormDecodeEncode` and `Percent.FormEncodeKeepsUnreserved` state what it keeps |
| Percent.FormDecodeEncode | src/main.rs:82 | form-decoding the serialisation of any bytes gives back those bytes |
| Percent.FormEncodeKeepsUnreserved | src/main.rs:82 | text made only of characters the form serialiser keeps is written unchanged |
| Decimal.Render | src/main.rs:82 | an integer is written as at least one decimal digit, with no leading zero |
| Decimal.ParseRender | src/main.rs:82 | parsing the decimal rendering gives back the number |
| Decimal.RenderInjective | src/main.rs:82 | different numbers have different renderings |
| Query.Encode | src/main.rs:82 | writes `key=value` for each pair and joins them with `&`, in order; it has no contract of its own, and `Query.ParseEncode` and `Query.EncodeSnoc` state what it writes |
| Query.SplitJoin | src/main.rs:82 | splitting a `&`-joined text gives back the parts, provided none of them contains `&` |
| Query.ParseEncode | src/main.rs:82 | a reader that splits at `&` and then at the first `=` recovers the pairs in order, provided keys hold neither `&` nor `=` and values hold no `&` |
| Query.EncodeSnoc | src/main.rs:83 | appending `&key=value` to a query string is the same as encoding one more pair |
| Query.ReadUrl | src/main.rs:83 | cutting `base?query` at the first `?` gives back `base` (when it has no `?`) and a query that reads back as its pairs |
| Tracker.BuildRequest | src/main.rs:73-80 | the request has `left` equal to the file length, `uploaded` and `downloaded` 0, `compact` 1, `port` 6881, and the fixed 20-character peer id |
| Tracker.FieldValues | src/models.rs:27-33 | a request has six values, one per field in declaration order |
| Tracker.FieldValuesReadBack | src/main.rs:82 | the first value is the peer id itself, and every later value parses back as the integer field it came from |
| Tracker.Params | src/main.rs:82 | computes the query string only and has no contract of its own; `Tracker.EncodedRequestPairs` and `Tracker.ParamsReadBack` state what it holds |
| Tracker.FieldNamePassesThrough | src/models.rs:27-33 | every request field name is written unchanged by the form serialiser |
| Tracker.FieldNameSeparable | src/models.rs:27-33 | no field name contains `&` or `=` |
| Tracker.EncodedRequestPairs | src/main.rs:82 | after form-encoding, the integer values are unchanged decimal; only the peer id can change |
| Tracker.ParamsReadBack | src/main.rs:82 | the query string reads back as six pairs in declaration order: the peer id decodes to its UTF-8 bytes and every integer to its decimal rendering |
| Tracker.AnnounceParams | src/main.rs:73-82 | the announce query string is `peer_id=00112233445566778899&port=6881&uploaded=0&downloaded=0&left=<length>&compact=1` |
| Tracker.UrlOf | src/main.rs:83 | lays out the URL only and has no contract of its own; `Tracker.UrlOfShape` and `Tracker.AnnounceUrlReadBack` state what it holds and how a tracker reads it back |
| Tracker.UrlOfShape | src/main.rs:83 | for a query string of one or more encoded pairs, the URL is the tracker URL, `?`, and the encoding of those pairs followed by the pair (`info_hash`, encoded info hash) |
| Tracker.AnnounceUrl | src/main.rs:71-83 | assembles the announce URL only and has no contract of its own; `Tracker.AnnounceUrlShape` and `Tracker.AnnounceUrlReadBack` state what it holds |
| Tracker.AnnounceUrlShape | src/main.rs:83 | the URL is the tracker URL, `?`, the announce pairs, then `&info_hash=` and the URL form of the digest |
| Tracker.AnnounceUrlReadBack | src/main.rs:71-83 | a tracker reading the URL finds the tracker URL before `?` and the seven pairs in order; `left` parses to the file length and `info_hash` percent-decodes to the raw digest |
| Slices.Chunks | src/main.rs:65 | `chunks(k)` gives no pieces exactly when the input is empty; every piece holds 1 to `k` elements, and all but the last hold exactly `k` |
| Slices.ChunksCount | src/main.rs:65 | `chunks(k)` gives the least number `n` of pieces for which `n * k` reaches the input length |
| Slices.ChunkAt | src/main.rs:65 | piece `i` is the window of the input from `i * k`, cut short by the end of the input |
| Slices.ChunksFlatten | src/main.rs:65 | the pieces concatenate back to the input |
| Slices.ChunksExact | src/main.rs:88 | `chunks_exact(k)` gives only pieces of exactly `k` elements, and none when the input is shorter than `k` |
| Slices.ChunksExactCount | src/main.rs:88 | `chunks_exact(k)` gives the input length divided by `k`, rounded down, pieces |
| Slices.ChunkExactAt | src/main.rs:88 | piece `i` is the window from `i * k` to `i * k + k` |
| Slices.ChunksExactIsChunksOfPrefix | src/main.rs:88 | `chunks_exact(k)` is `chunks(k)` of the longest prefix whose length is a multiple of `k` |
| Slices.ChunksExactFlatten | src/main.rs:88 | the pieces concatenate to the input without its remainder |
| Pieces.PieceHashes | src/main.rs:65 | the piece table has `ceil(n / 20)` hashes: all but the last are 20 bytes, the last is 1 to 20 bytes, and together they are exactly `pieces` |
| Pieces.PieceHashAt | src/main.rs:65 | hash `i` is the bytes of `pieces` from offset `20 * i`, up to 20 of them |
| Pieces.WholeHashesIffMultiple | src/main.rs:65 | every hash is 20 bytes long if and only if the length of `pieces` is a multiple of 20 |
| Pieces.PieceHashLines | src/main.rs:65-67 | one printed line per hash, in order; each line is lowercase hex digits only, decodes back to its hash, and all but the last are 40 characters |
| Peers.PeerOfGroup | src/main.rs:89-93 | a group's first four bytes are the IPv4 octets; the port's high byte is byte 4 and its low byte byte 5 |
| Peers.FromBigEndian | src/main.rs:92-93 | the port's high byte is the first byte and its low byte the second |
| Peers.DecodePeers | src/main.rs:88-93 | `floor(n / 6)` peers in input order: peer `i` has octets `6i..6i+4` and port `b[6i+4] * 256 + b[6i+5]` |
| Peers.ResponsePeers | src/main.rs:86-88 | a tracker response yields one peer per whole 6-byte group of its `peers` bytes, in order: peer `i` has octets `6i..6i+4` of `peers` and port `peers[6i+4] * 256 + peers[6i+5]` |
| Peers.DecodePeersUnfold | src/main.rs:88-95 | decoding takes one group at a time from the front |
| Peers.EncodePeer | src/main.rs:89-93 | the 6-byte group of a peer decodes back to that peer |
| Peers.DecodeEncodePeers | src/main.rs:88-95 | decoding a compact list of peers gives back the peers in order |
| Peers.EncodeDecodePeers | src/main.rs:88-95 | re-encoding the decoded peers gives the input up to its last whole group |
| Peers.RemainderIgnored | src/main.rs:88 | up to five trailing bytes after whole groups never change the result |
| Peers.LoopbackExample | src/main.rs:89-94 | `7F 00 00 01 1A E1` is the one peer 127.0.0.1:6881 |
| Peers.SevenByteListExample | src/main.rs:88 | a 7-byte list is not an error: its seventh byte is dropped |
| Handshake.ProtocolNameIsAscii | src/main.rs:119 | the 19 protocol-name bytes are the ASCII text `BitTorrent protocol` |
| Handshake.Build | src/main.rs:117-122 | the message is 68 bytes: 19, the protocol name, eight zero bytes, the info hash at 28..48 and the peer id at 48..68 |
| Handshake.ParseBuild | src/main.rs:117-122 | the strict reader recovers the info hash and peer id from a built message |
| Handshake.Parse | src/main.rs:117-133 | the strict reader accepts exactly the well-formed messages: 68 bytes, 19, the protocol name and eight zero bytes. An accepted message is the one built from the info hash and peer id it returns, and that peer id is the one the program takes from bytes 48..68 |
| Handshake.ReadReply | src/main.rs:129-130 | `read_exact` into a 68-byte buffer succeeds exactly when 68 bytes arrive, and takes the first 68; otherwise it reports a short read |
| Handshake.RemotePeerId | src/main.rs:133 | the peer id is what follows the first 48 reply bytes: those 48 bytes and the id together make up the reply |
| Handshake.RemotePeerIdOfOwnMessage | src/main.rs:117-133 | bytes 48..68 of a locally built message are the local peer id |
| Handshake.RemotePeerIdIgnoresHeader | src/main.rs:133 | two replies give the same peer id exactly when their bytes 48..68 agree; bytes 0..48 play no part |
| Handshake.ForeignReplyAccepted | src/main.rs:129-133 | a reply of 68 zero bytes has no protocol name and fails the strict reader, yet the program still takes a peer id from it |
| Handshake.Exchange | src/main.rs:116-133 | with enough reply bytes the exchange sends the built message and returns reply bytes 48..68; with fewer it fails with a short read |
| Handshake.FileExchange | src/main.rs:101-133 | the handshake sent for a metainfo file is exactly the message built from the file's raw info hash and the local peer id: 19, the protocol name, eight zero bytes, then at 28..48 the digest whose hex rendering the `info` command prints, and the local peer id at 48..68; with 68 reply bytes it returns reply bytes 48..68 as the remote peer id, with fewer it fails with a short read |

## Left out

- Command-line dispatch and argument reading (src/main.rs:41-44, 53-54, 68-69, 96-97, 100, 135-137): user interface only.
- Printing (src/main.rs:56-59, 62-64, 66, 81, 84, 94, 114, 126, 134): output only. The text printed at lines 62, 66 and 134 is modelled (`InfoHash.HexForm`, `Pieces.PieceHashLines`, `Hex.Encode`); writing it out is not.
- Reading the metainfo file and bencode (de)serialisation (src/main.rs:17-21, 24, 32, 55, 70, 86, 98): library code. Records are given directly. The serialiser is a function parameter applied to the fields the derived `Serialize` hands it (`Models.InfoFields`).
- The `bencoding` module and the `decode` command (src/main.rs:12, 15, 45-52): `bencoding` is not part of this model.
- SHA-1 (src/main.rs:25-27, 33-35, 102-104): a function parameter whose result is 20 bytes by its type. The length assertion at src/main.rs:106 therefore always holds.
- The HTTP request to the tracker (src/main.rs:85): network I/O. The tracker response is a record given directly.
- Connecting (src/main.rs:113) and writing (src/main.rs:125): network I/O. The write uses `write`, not `write_all`, and ignores the count written, so a short write would go unnoticed; the model assumes the whole message is sent. The bytes the peer sends are a parameter.
- Random peer-id generation (src/main.rs:109-110): nondeterministic. The local peer id is a parameter.
- `expect` and `unwrap` panics become `Err` results (a short read) or are outside the model (parse and connection failures).
- `uploaded` and `downloaded` are `usize` in the source. The model takes them as 64-bit.
- Bytes.Utf8: states only the length bounds, and the ASCII case through `Bytes.Utf8OfAscii`; the bit layout of multi-byte sequences is in the body but not in a contract. The only text the model serialises is the fixed ASCII peer id.
- Query serialisation assumes the field order of the derived `Serialize` (declaration order). The peer id is encoded from its UTF-8 bytes; Dafny characters are Unicode scalar values, so there are no surrogate pairs.
- Tracker.AnnounceUrlReadBack: requires the tracker URL to contain no `?`. If it has one, a reader cuts at that first `?`, and the model states nothing about that case.
- Tracker.ParamsReadBack: states the peer id's read-back only as its UTF-8 bytes, not as text.

=== FILE: bytes.dfy ===
/** Machine integers, bytes and text as bytes.

    Rust's fixed-width unsigned integers become subset types of `int`, so every
    value the model stores is provably in range of the Rust field it stands for. */
module Bytes {

  const TWO_TO_THE_8: int := 0x100
  const TWO_TO_THE_16: int := 0x1_0000
  const TWO_TO_THE_64: int := 0x1_0000_0000_0000_0000

  /** Rust `u8`. */
  type uint8 = x: int | 0 <= x < TWO_TO_THE_8
  /** Rust `u16`. */
  type uint16 = x: int | 0 <= x < TWO_TO_THE_16
  /** Rust `u64` (and `usize` on a 64-bit target). */
  type uint64 = x: int | 0 <= x < TWO_TO_THE_64

  /** True when every character of `s` is 7-bit ASCII. */
  predicate IsAscii(s: string)
  {
    forall i :: 0 <= i < |s| ==> s[i] as int < 0x80
  }

  /** The bytes of an ASCII string, one per character (`b"..."` in Rust). */
  function AsciiBytes(s: string): (b: seq<uint8>)
    requires IsAscii(s)
    ensures |b| == |s|
    ensures forall i :: 0 <= i < |s| ==> b[i] == s[i] as int
  {
    seq(|s|, i requires 0 <= i < |s| => s[i] as int)
  }

  /** The UTF-8 encoding of one Unicode scalar value (how a Rust `String`
      stores the character). */
  function Utf8Char(c: char): (b: seq<uint8>)
    ensures 1 <= |b| <= 4
    ensures (c as int < 0x80) <==> (b == [c as int])
  {
    var n := c as int;
    if n < 0x80 then [n]
    else if n < 0x800 then [0xC0 + n / 0x40, 0x80 + n % 0x40]
    else if n < 0x1_0000 then [0xE0 + n / 0x1000, 0x80 + (n / 0x40) % 0x40, 0x80 + n % 0x40]
    else [0xF0 + n / 0x4_0000, 0x80 + (n / 0x1000) % 0x40, 0x80 + (n / 0x40) % 0x40, 0x80 + n % 0x40]
  }

  /** The UTF-8 bytes of a string. */
  function Utf8(s: string): (b: seq<uint8>)
    ensures |s| <= |b| <= 4 * |s|
  {
    if s == [] then [] else Utf8Char(s[0]) + Utf8(s[1..])
  }

  /** On ASCII text UTF-8 is one byte per character, the character's code. */
  lemma {:induction false} Utf8OfAscii(s: string)
    requires IsAscii(s)
    ensures Utf8(s) == AsciiBytes(s)
    decreases |s|
  {
    if s != [] {
      Utf8OfAscii(s[1..]);
      assert AsciiBytes(s) == [s[0] as int] + AsciiBytes(s[1..]);
    }
  }
}

=== FILE: decimal.dfy ===
/** Decimal rendering of unsigned integers, as Rust's integer `Display` (and the
    query serialiser) writes them, and a parser that inverts it. */
module Decimal {
  import opened Wrappers

  predicate IsDigit(c: char)
  {
    '0' <= c <= '9'
  }

  function DigitChar(d: nat): (c: char)
    requires d < 10
    ensures IsDigit(c) && c as int - '0' as int == d
  {
    ('0' as int + d) as char
  }

  /** Shortest decimal rendering: at least one digit, no leading zero. */
  function Render(n: nat): (s: string)
    ensures |s| >= 1
    ensures forall i :: 0 <= i < |s| ==> IsDigit(s[i])
    ensures |s| > 1 ==> s[0] != '0'
  {
    if n < 10 then [DigitChar(n)] else Render(n / 10) + [DigitChar(n % 10)]
  }

  /** The value of a string of decimal digits, most significant first. */
  function Value(s: string): nat
    requires forall i :: 0 <= i < |s| ==> IsDigit(s[i])
  {
    if s == [] then 0
    else
      assert IsDigit(s[|s| - 1]);
      10 * Value(s[..|s| - 1]) + (s[|s| - 1] as int - '0' as int)
  }

  /** Parses a non-empty string of decimal digits; `None` on anything else. */
  function Parse(s: string): (r: Option<nat>)
    ensures r.Some? <==> |s| > 0 && forall i :: 0 <= i < |s| ==> IsDigit(s[i])
  {
    if |s| > 0 && forall i :: 0 <= i < |s| ==> IsDigit(s[i]) then Some(Value(s)) else None
  }

  /** Parsing a rendering gives back the number. */
  lemma {:induction false} ParseRender(n: nat)
    ensures Parse(Render(n)) == Some(n)
    decreases n
  {
    if n >= 10 {
      ParseRender(n / 10);
      var s := Render(n);
      assert s[..|s| - 1] == Render(n / 10);
      assert Value(s) == 10 * (n / 10) + n % 10;
    }
  }

  /** Different numbers never share a rendering. */
  lemma RenderInjective(m: nat, n: nat)
    requires Render(m) == Render(n)
    ensures m == n
  {
    ParseRender(m);
    ParseRender(n);
  }
}

=== FILE: handshake.dfy ===
/** The peer handshake of the `handshake` command (src/main.rs): the 68-byte
    message of the BitTorrent peer protocol (BEP 3), and the remote peer id
    taken from the 68-byte reply.

    The socket is replaced by the bytes the remote peer sends; the random local
    peer id is a parameter. The reply's protocol-name and reserved bytes are
    never checked: any 68 bytes yield a peer id. A strict reader, `Parse`, is
    given beside the lenient one as a reference. */
module Handshake {
  import opened Bytes
  import opened Wrappers
  import opened Models
  import opened InfoHash
  import Hex

  const ProtocolString: string := "BitTorrent protocol"
  /** `b"BitTorrent protocol"`. */
  const ProtocolName: seq<uint8> :=
    [0x42, 0x69, 0x74, 0x54, 0x6F, 0x72, 0x72, 0x65, 0x6E, 0x74, 0x20,
     0x70, 0x72, 0x6F, 0x74, 0x6F, 0x63, 0x6F, 0x6C]
  const ReservedLength: nat := 8
  const PeerIdLength: nat := 20
  const MessageLength: nat := 68

  /** Offsets of the fields within the message. */
  const InfoHashOffset: nat := 28
  const PeerIdOffset: nat := 48

  type PeerId = s: seq<uint8> | |s| == PeerIdLength witness seq(20, _ => 0)

  datatype HandshakeError =
    /** The stream ended before 68 reply bytes arrived (`read_exact` failed). */
    | ShortRead(received: nat)

  lemma ProtocolNameIsAscii()
    ensures IsAscii(ProtocolString)
    ensures ProtocolName == AsciiBytes(ProtocolString)
  {
  }

  /** The message sent: length 19, the protocol name, eight zero bytes, the
      info hash at 28..48 and the peer id at 48..68. */
  function Build(infoHash: Digest, peerId: PeerId): (m: seq<uint8>)
    ensures |m| == MessageLength
    ensures m[0] == |ProtocolName| == 19
    ensures m[1..20] == ProtocolName
    ensures forall i :: 20 <= i < InfoHashOffset ==> m[i] == 0
    ensures m[InfoHashOffset..PeerIdOffset] == infoHash
    ensures m[PeerIdOffset..] == peerId
  {
    [19] + ProtocolName + seq(ReservedLength, _ => 0) + infoHash + peerId
  }

  /** `read_exact` into a 68-byte buffer: the first 68 bytes the peer sends, or
      a short read if it sends fewer. */
  function ReadReply(incoming: seq<uint8>): (r: Result<seq<uint8>, HandshakeError>)
    ensures r.Ok? <==> |incoming| >= MessageLength
    ensures r.Ok? ==> |r.value| == MessageLength && incoming == r.value + incoming[MessageLength..]
    ensures r.Err? ==> r.error == ShortRead(|incoming|)
  {
    if |incoming| < MessageLength then Err(ShortRead(|incoming|)) else Ok(incoming[..MessageLength])
  }

  /** The remote peer id: bytes 48..68 of the reply, whatever bytes 0..48 hold. */
  function RemotePeerId(reply: seq<uint8>): (id: PeerId)
    requires |reply| == MessageLength
    ensures reply[..PeerIdOffset] + id == reply
  {
    reply[PeerIdOffset..]
  }

  /** Bytes 0..48 of a reply play no part in the peer id taken from it. */
  lemma RemotePeerIdIgnoresHeader(a: seq<uint8>, b: seq<uint8>)
    requires |a| == |b| == MessageLength
    ensures RemotePeerId(a) == RemotePeerId(b) <==> a[PeerIdOffset..] == b[PeerIdOffset..]
  {
  }

  /** Read the way this program reads a reply, a message it built itself gives
      back its own peer id. */
  lemma RemotePeerIdOfOwnMessage(infoHash: Digest, peerId: PeerId)
    ensures RemotePeerId(Build(infoHash, peerId)) == peerId
  {
  }

  /** The checks a strict reader makes: 68 bytes, the protocol name after a
      length byte of 19, and eight zero reserved bytes. */
  predicate WellFormed(m: seq<uint8>)
  {
    |m| == MessageLength && m[0] == 19 && m[1..20] == ProtocolName
    && forall i :: 20 <= i < InfoHashOffset ==> m[i] == 0
  }

  /** A well-formed message is the one built from its own info hash and peer id. */
  lemma BuildOfFields(m: seq<uint8>)
    requires WellFormed(m)
    ensures Build(m[InfoHashOffset..PeerIdOffset], m[PeerIdOffset..]) == m
  {
    var b := Build(m[InfoHashOffset..PeerIdOffset], m[PeerIdOffset..]);
    assert b == b[..1] + b[1..20] + b[20..28] + b[28..];
  }

  /** The strict reading of a handshake: the info hash and peer id of a
      well-formed message, which is then exactly the message built from them;
      `None` for anything else. */
  function Parse(m: seq<uint8>): (r: Option<(Digest, PeerId)>)
    ensures r.Some? <==> WellFormed(m)
    ensures r.Some? ==> Build(r.value.0, r.value.1) == m
    ensures r.Some? ==> RemotePeerId(m) == r.value.1
  {
    if WellFormed(m) then
      BuildOfFields(m);
      Some((m[InfoHashOffset..PeerIdOffset], m[PeerIdOffset..]))
    else None
  }

  /** Every built message parses back to the fields it was built from. */
  lemma ParseBuild(infoHash: Digest, peerId: PeerId)
    ensures Parse(Build(infoHash, peerId)) == Some((infoHash, peerId))
  {
  }

  /** The program's reading is strictly more permissive: a reply of 68 zero
      bytes has no protocol name, yet it still yields a peer id. */
  lemma ForeignReplyAccepted()
    ensures Parse(seq(68, _ => 0)).None?
    ensures RemotePeerId(seq(68, _ => 0)) == seq(20, _ => 0)
  {
    var z: seq<uint8> := seq(68, _ => 0);
    assert z[0] != 19;
  }

  /** The exchange, with the connection replaced by the bytes the peer sends:
      the message written and the remote peer id, or a short read. */
  function Exchange(infoHash: Digest, localId: PeerId, incoming: seq<uint8>)
    : (r: Result<(seq<uint8>, PeerId), HandshakeError>)
    ensures r.Ok? <==> |incoming| >= MessageLength
    ensures r.Ok? ==> r.value.0 == Build(infoHash, localId)
    ensures r.Ok? ==> r.value.1 == incoming[PeerIdOffset..MessageLength]
    ensures r.Err? ==> r.error == ShortRead(|incoming|)
  {
    match ReadReply(incoming)
    case Ok(reply) => Ok((Build(infoHash, localId), RemotePeerId(reply)))
    case Err(e) => Err(e)
  }

  /** The handshake of a metainfo file: the message carries the raw info hash,
      the same digest whose hexadecimal rendering the `info` command prints,
      and the remote peer id is reply bytes 48..68. */
  function FileExchange(file: TorrentFile, ser: Serializer, sha1: Sha1, localId: PeerId, incoming: seq<uint8>)
    : (r: Result<(seq<uint8>, PeerId), HandshakeError>)
    ensures r.Ok? <==> |incoming| >= MessageLength
    ensures r.Ok? ==> r.value.0 == Build(Raw(file, ser, sha1), localId)
    ensures r.Ok? ==> |r.value.0| == MessageLength
    ensures r.Ok? ==> Hex.Decode(HexForm(file, ser, sha1)) == Some(r.value.0[InfoHashOffset..PeerIdOffset])
    ensures r.Ok? ==> r.value.0[PeerIdOffset..] == localId
    ensures r.Ok? ==> r.value.1 == incoming[PeerIdOffset..MessageLength]
    ensures r.Err? ==> r.error == ShortRead(|incoming|)
  {
    Exchange(Raw(file, ser, sha1), localId, incoming)
  }
}

=== FILE: hex.dfy ===
/** Hexadecimal text: the `hex::encode` rendering the program prints for the
    info hash and for every piece hash, and a decoder that inverts it. */
module Hex {
  import opened Bytes
  import opened Wrappers

  const LowerDigits: string := "0123456789abcdef"
  const UpperDigits: string := "0123456789ABCDEF"

  predicate IsLowerHexDigit(c: char)
  {
    '0' <= c <= '9' || 'a' <= c <= 'f'
  }

  predicate IsUpperHexDigit(c: char)
  {
    '0' <= c <= '9' || 'A' <= c <= 'F'
  }

  /** The value of a hexadecimal digit of either case; `None` for any other character. */
  function DigitValue(c: char): (v: Option<nat>)
    ensures v.Some? ==> v.value < 16
  {
    if '0' <= c <= '9' then Some(c as int - '0' as int)
    else if 'a' <= c <= 'f' then Some(c as int - 'a' as int + 10)
    else if 'A' <= c <= 'F' then Some(c as int - 'A' as int + 10)
    else None
  }

  /** Both digit alphabets read back as the value they were chosen for. */
  lemma DigitsReadBack(v: nat)
    requires v < 16
    ensures IsLowerHexDigit(LowerDigits[v]) && IsUpperHexDigit(UpperDigits[v])
    ensures DigitValue(LowerDigits[v]) == Some(v)
    ensures DigitValue(UpperDigits[v]) == Some(v)
  {
  }

  /** `hex::encode`: two lowercase digits per byte, high nibble first. */
  function Encode(bs: seq<uint8>): (s: string)
    ensures |s| == 2 * |bs|
    ensures forall i :: 0 <= i < |s| ==> IsLowerHexDigit(s[i])
  {
    if bs == [] then ""
    else
      DigitsReadBack(bs[0] / 16);
      DigitsReadBack(bs[0] % 16);
      [LowerDigits[bs[0] / 16], LowerDigits[bs[0] % 16]] + Encode(bs[1..])
  }

  /** Reads pairs of hexadecimal digits (either case) back into bytes; `None`
      on an odd length or a character that is not a hexadecimal digit. */
  function Decode(s: string): (r: Option<seq<uint8>>)
    ensures r.Some? ==> 2 * |r.value| == |s|
    decreases |s|
  {
    if |s| == 0 then Some([])
    else if |s| == 1 then None
    else
      match (DigitValue(s[0]), DigitValue(s[1]), Decode(s[2..]))
      case (Some(h), Some(l), Some(rest)) => Some([h * 16 + l] + rest)
      case _ => None
  }

  /** Decoding the rendering gives back the bytes: `hex::encode` loses nothing. */
  lemma {:induction false} DecodeEncode(bs: seq<uint8>)
    ensures Decode(Encode(bs)) == Some(bs)
  {
    if bs != [] {
      DecodeEncode(bs[1..]);
      DigitsReadBack(bs[0] / 16);
      DigitsReadBack(bs[0] % 16);
      var e := Encode(bs);
      assert e[2..] == Encode(bs[1..]);
      assert DigitValue(e[0]) == Some(bs[0] / 16) && DigitValue(e[1]) == Some(bs[0] % 16);
      assert bs[0] / 16 * 16 + bs[0] % 16 == bs[0];
      assert [bs[0]] + bs[1..] == bs;
    }
  }

  /** Distinct byte strings have distinct renderings. */
  lemma EncodeInjective(a: seq<uint8>, b: seq<uint8>)
    requires Encode(a) == Encode(b)
    ensures a == b
  {
    DecodeEncode(a);
    DecodeEncode(b);
  }
}

=== FILE: infohash.dfy ===
/** The info hash: the 20-byte SHA-1 digest of the bencoded `info` dictionary
    (src/main.rs, `info_hash_generator`, `info_hash_url_encoded` and the
    handshake command), and its two text renderings.

    SHA-1 and the bencode serialiser are library code outside this model. They
    enter as function parameters; the only property assumed of SHA-1 is the one
    its type states, a 20-byte result. */
module InfoHash {
  import opened Bytes
  import opened Wrappers
  import opened Models
  import Hex
  import Percent

  const DigestLength: nat := 20

  /** A SHA-1 digest. */
  type Digest = s: seq<uint8> | |s| == DigestLength witness seq(20, _ => 0)

  /** A SHA-1 implementation, of which nothing but the output length is known. */
  type Sha1 = seq<uint8> -> Digest

  /** A bencode serialiser for derived records, of which nothing is known. */
  type Serializer = seq<Field> -> seq<uint8>

  /** The raw info hash: the digest of the serialised `info` dictionary. */
  function Raw(file: TorrentFile, ser: Serializer, sha1: Sha1): Digest
  {
    sha1(ser(InfoFields(file.info)))
  }

  /** Only `info` is hashed: files that differ only in their tracker URL have
      the same info hash. */
  lemma RawIgnoresAnnounce(file: TorrentFile, announce: string, ser: Serializer, sha1: Sha1)
    ensures Raw(TorrentFile(announce, file.info), ser, sha1) == Raw(file, ser, sha1)
  {
  }

  /** The printed form: 40 lowercase hexadecimal digits that read back as the raw digest. */
  function HexForm(file: TorrentFile, ser: Serializer, sha1: Sha1): (s: string)
    ensures |s| == 2 * DigestLength
    ensures forall i :: 0 <= i < |s| ==> Hex.IsLowerHexDigit(s[i])
    ensures Hex.Decode(s) == Some(Raw(file, ser, sha1))
  {
    Hex.DecodeEncode(Raw(file, ser, sha1));
    Hex.Encode(Raw(file, ser, sha1))
  }

  /** The URL form: the raw digest bytes percent-encoded, letters and digits
      kept and every other byte written `%XX`. */
  function UrlForm(file: TorrentFile, ser: Serializer, sha1: Sha1): (s: string)
    ensures DigestLength <= |s| <= 3 * DigestLength
    ensures forall i :: 0 <= i < |s| ==> Percent.IsPercentChar(s[i])
    ensures Percent.Decode(s) == Some(Raw(file, ser, sha1))
  {
    Percent.DecodeEncode(Raw(file, ser, sha1));
    Percent.Encode(Raw(file, ser, sha1))
  }

  /** The URL form encodes the digest bytes, not their hexadecimal text: it
      differs from the percent-encoding of the printed form. */
  lemma UrlFormIsNotHexText(file: TorrentFile, ser: Serializer, sha1: Sha1)
    ensures IsAscii(HexForm(file, ser, sha1))
    ensures UrlForm(file, ser, sha1) != Percent.Encode(AsciiBytes(HexForm(file, ser, sha1)))
  {
    var hex := HexForm(file, ser, sha1);
    assert forall i :: 0 <= i < |hex| ==> hex[i] as int < 0x80 by {
      forall i | 0 <= i < |hex|
        ensures hex[i] as int < 0x80
      {
        assert Hex.IsLowerHexDigit(hex[i]);
      }
    }
    var text := AsciiBytes(hex);
    Percent.DecodeEncode(text);
    assert |text| != |Raw(file, ser, sha1)|;
  }
}

=== FILE: models.dfy ===
/** The records the client reads and writes: the metainfo file, the tracker's
    request and response. Rust's `u64`, `u16`, `u8` and `usize` fields become
    the bounded integer types of `Bytes`; `Vec<u8>` fields marked as raw bytes
    stay byte sequences and never become text. */
module Models {
  import opened Bytes
  import opened Wrappers

  /** The `info` dictionary of a metainfo file. */
  datatype TorrentInfo = TorrentInfo(
    length: uint64,
    name: string,
    pieceLength: uint64,
    pieces: seq<uint8>)

  /** A metainfo file: the tracker URL and the `info` dictionary, nothing else. */
  datatype TorrentFile = TorrentFile(announce: string, info: TorrentInfo)

  /** The tracker's reply: the re-announce interval and the compact peer list. */
  datatype TrackerResponse = TrackerResponse(interval: uint64, peers: seq<uint8>)

  /** The query parameters of an announce request (`usize` fields taken as 64-bit). */
  datatype TrackerRequest = TrackerRequest(
    peerId: string,
    port: uint16,
    uploaded: uint64,
    downloaded: uint64,
    left: uint64,
    compact: uint8)

  /** A field value in the shape a derived serialiser hands it on: an unsigned
      integer, text, or a raw byte string. */
  datatype Value = UInt(n: nat) | Str(s: string) | ByteString(b: seq<uint8>)

  datatype Field = Field(key: string, value: Value)

  const LengthKey: string := "length"
  const NameKey: string := "name"
  /** The one renamed field: two words with a space, not `piece_length`. */
  const PieceLengthKey: string := "piece length"
  const PiecesKey: string := "pieces"

  /** The value of the first field named `key`. */
  function Get(fields: seq<Field>, key: string): (r: Option<Value>)
    ensures r.Some? <==> exists i :: 0 <= i < |fields| && fields[i].key == key
    ensures r.Some? ==> exists i :: 0 <= i < |fields| && fields[i] == Field(key, r.value)
  {
    if fields == [] then None
    else if fields[0].key == key then Some(fields[0].value)
    else
      var r := Get(fields[1..], key);
      assert forall i :: 1 <= i < |fields| ==> fields[i] == fields[1..][i - 1];
      r
  }

  /** The fields the serialiser is given for `info`, in declaration order:
      `piece_length` under the key "piece length", `pieces` as raw bytes. */
  function InfoFields(info: TorrentInfo): (fs: seq<Field>)
    ensures |fs| == 4
    ensures fs[0].key == LengthKey && fs[1].key == NameKey
    ensures fs[2].key == PieceLengthKey && fs[3].key == PiecesKey
    ensures Get(fs, LengthKey) == Some(UInt(info.length))
    ensures Get(fs, NameKey) == Some(Str(info.name))
    ensures Get(fs, PieceLengthKey) == Some(UInt(info.pieceLength))
    ensures Get(fs, PiecesKey) == Some(ByteString(info.pieces))
  {
    var fs := [ Field(LengthKey, UInt(info.length)),
                Field(NameKey, Str(info.name)),
                Field(PieceLengthKey, UInt(info.pieceLength)),
                Field(PiecesKey, ByteString(info.pieces)) ];
    assert LengthKey[0] != PiecesKey[0] && NameKey != PiecesKey && PieceLengthKey != PiecesKey;
    assert fs[1..][1..] == fs[2..] && fs[2..][1..] == fs[3..];
    assert Get(fs[3..], PiecesKey) == Some(ByteString(info.pieces));
    assert Get(fs[2..], PiecesKey) == Get(fs[3..], PiecesKey);
    assert Get(fs[1..], PiecesKey) == Get(fs[2..], PiecesKey);
    assert Get(fs[2..], PieceLengthKey) == Some(UInt(info.pieceLength));
    fs
  }

  /** Reads an `info` record back from fields by key: `None` when a key is
      missing, a value has the wrong kind, or an integer exceeds 64 bits. */
  function InfoFromFields(fs: seq<Field>): (r: Option<TorrentInfo>)
    ensures r.Some? ==> Get(fs, PieceLengthKey) == Some(UInt(r.value.pieceLength))
    ensures r.Some? ==> Get(fs, PiecesKey) == Some(ByteString(r.value.pieces))
  {
    match (Get(fs, LengthKey), Get(fs, NameKey), Get(fs, PieceLengthKey), Get(fs, PiecesKey))
    case (Some(UInt(len)), Some(Str(name)), Some(UInt(pl)), Some(ByteString(ps))) =>
      if len < TWO_TO_THE_64 && pl < TWO_TO_THE_64 then Some(TorrentInfo(len, name, pl, ps)) else None
    case _ => None
  }

  /** The field view loses nothing: reading the fields back gives the record. */
  lemma InfoFieldsRoundTrip(info: TorrentInfo)
    ensures InfoFromFields(InfoFields(info)) == Some(info)
  {
  }

  /** Hence two different `info` records never hand the serialiser the same fields. */
  lemma InfoFieldsInjective(a: TorrentInfo, b: TorrentInfo)
    requires InfoFields(a) == InfoFields(b)
    ensures a == b
  {
    InfoFieldsRoundTrip(a);
    InfoFieldsRoundTrip(b);
  }
}

=== FILE: peers.dfy ===
/** The compact peer list of the tracker's reply (src/main.rs, the `peers`
    command): `peers.chunks_exact(6)`, each group four IPv4 octets and a
    big-endian `u16` port.

    A blob whose length is not a multiple of 6 is not rejected: the trailing
    remainder of fewer than 6 bytes is dropped. */
module Peers {
  import opened Bytes
  import opened Models
  import opened Slices

  const CompactPeerLength: nat := 6

  /** The four octets of an IPv4 address, most significant first. */
  type Octets = s: seq<uint8> | |s| == 4 witness [0, 0, 0, 0]

  datatype PeerAddr = PeerAddr(ip: Octets, port: uint16)

  /** `u16::from_be_bytes([hi, lo])`. */
  function FromBigEndian(hi: uint8, lo: uint8): (n: uint16)
    ensures n / 256 == hi && n % 256 == lo
  {
    hi * 256 + lo
  }

  /** One 6-byte group: octets 0..4, port from bytes 4 and 5. */
  function PeerOfGroup(g: seq<uint8>): (p: PeerAddr)
    requires |g| == CompactPeerLength
    ensures p.ip == g[..4]
    ensures p.port / 256 == g[4] && p.port % 256 == g[5]
  {
    PeerAddr(g[..4], FromBigEndian(g[4], g[5]))
  }

  /** The peers of a compact list, one per whole 6-byte group, in input order. */
  function DecodePeers(blob: seq<uint8>): (ps: seq<PeerAddr>)
    ensures |ps| == |blob| / CompactPeerLength
    ensures forall i :: 0 <= i < |ps| ==>
              && ps[i].ip == blob[6 * i .. 6 * i + 4]
              && ps[i].port == blob[6 * i + 4] as int * 256 + blob[6 * i + 5]
  {
    var gs := ChunksExact(blob, CompactPeerLength);
    ChunksExactCount(blob, CompactPeerLength);
    assert forall i :: 0 <= i < |gs| ==> gs[i] == blob[6 * i .. 6 * i + 6] by {
      forall i | 0 <= i < |gs| {
        ChunkExactAt(blob, CompactPeerLength, i);
      }
    }
    seq(|gs|, i requires 0 <= i < |gs| => PeerOfGroup(gs[i]))
  }

  /** The peers listed in a tracker response. */
  function ResponsePeers(resp: TrackerResponse): (ps: seq<PeerAddr>)
    ensures |ps| == |resp.peers| / CompactPeerLength
    ensures forall i :: 0 <= i < |ps| ==>
              && ps[i].ip == resp.peers[6 * i .. 6 * i + 4]
              && ps[i].port == resp.peers[6 * i + 4] as int * 256 + resp.peers[6 * i + 5]
  {
    DecodePeers(resp.peers)
  }

  /** Decoding takes off one group at a time from the front. */
  lemma DecodePeersUnfold(blob: seq<uint8>)
    requires |blob| >= CompactPeerLength
    ensures DecodePeers(blob) == [PeerOfGroup(blob[..6])] + DecodePeers(blob[6..])
  {
    var ps, rest := DecodePeers(blob), DecodePeers(blob[6..]);
    assert |ps| == |rest| + 1;
    forall i | 1 <= i < |ps|
      ensures ps[i] == rest[i - 1]
    {
      assert blob[6 * i .. 6 * i + 4] == blob[6..][6 * (i - 1) .. 6 * (i - 1) + 4];
    }
  }

  /** The 6-byte group of one peer. */
  function EncodePeer(p: PeerAddr): (g: seq<uint8>)
    ensures |g| == CompactPeerLength
    ensures PeerOfGroup(g) == p
  {
    p.ip + [p.port / 256, p.port % 256]
  }

  /** The compact list of a sequence of peers. */
  function EncodePeers(ps: seq<PeerAddr>): (blob: seq<uint8>)
    ensures |blob| == CompactPeerLength * |ps|
  {
    if ps == [] then [] else EncodePeer(ps[0]) + EncodePeers(ps[1..])
  }

  /** Decoding a compact list gives back its peers in order. */
  lemma {:induction false} DecodeEncodePeers(ps: seq<PeerAddr>)
    ensures DecodePeers(EncodePeers(ps)) == ps
  {
    if ps != [] {
      var blob := EncodePeers(ps);
      DecodePeersUnfold(blob);
      assert blob[..6] == EncodePeer(ps[0]);
      assert blob[6..] == EncodePeers(ps[1..]);
      DecodeEncodePeers(ps[1..]);
    }
  }

  /** Re-encoding the decoded peers gives back the blob up to its last whole
      group: the only bytes decoding loses are the remainder. */
  lemma {:induction false} EncodeDecodePeers(blob: seq<uint8>)
    ensures EncodePeers(DecodePeers(blob)) == blob[..|blob| / CompactPeerLength * CompactPeerLength]
    decreases |blob|
  {
    if |blob| >= CompactPeerLength {
      DecodePeersUnfold(blob);
      EncodeDecodePeers(blob[6..]);
      var g := blob[..6];
      assert EncodePeer(PeerOfGroup(g)) == g;
      assert blob[..|blob| / 6 * 6] == g + blob[6..][..|blob[6..]| / 6 * 6];
    }
  }

  /** Bytes after the last whole group never change the result. */
  lemma RemainderIgnored(blob: seq<uint8>, extra: seq<uint8>)
    requires |blob| % CompactPeerLength == 0
    requires |extra| < CompactPeerLength
    ensures DecodePeers(blob + extra) == DecodePeers(blob)
  {
    var a, b := DecodePeers(blob + extra), DecodePeers(blob);
    assert |a| == |b|;
    forall i | 0 <= i < |a|
      ensures a[i] == b[i]
    {
      assert (blob + extra)[6 * i .. 6 * i + 4] == blob[6 * i .. 6 * i + 4];
    }
  }

  /** `7F 00 00 01 1A E1` is 127.0.0.1:6881. */
  lemma LoopbackExample()
    ensures DecodePeers([0x7F, 0x00, 0x00, 0x01, 0x1A, 0xE1]) == [PeerAddr([127, 0, 0, 1], 6881)]
  {
    var blob: seq<uint8> := [0x7F, 0x00, 0x00, 0x01, 0x1A, 0xE1];
    assert blob[0..4] == [127, 0, 0, 1];
  }

  /** A 7-byte list is not an error: it yields the one whole peer and drops the last byte. */
  lemma SevenByteListExample()
    ensures DecodePeers([0x7F, 0x00, 0x00, 0x01, 0x1A, 0xE1, 0xFF]) == [PeerAddr([127, 0, 0, 1], 6881)]
  {
    var blob: seq<uint8> := [0x7F, 0x00, 0x00, 0x01, 0x1A, 0xE1];
    assert blob + [0xFF] == [0x7F, 0x00, 0x00, 0x01, 0x1A, 0xE1, 0xFF];
    RemainderIgnored(blob, [0xFF]);
    LoopbackExample();
  }
}

=== FILE: percent.dfy ===
/** Percent-encoding of bytes into URL text, in the two flavours the tracker URL
    uses:

    - `percent_encode(bytes, NON_ALPHANUMERIC)`: ASCII letters and digits are
      kept, every other byte becomes `%XX` (uppercase digits). The raw info hash
      is rendered this way.
    - `application/x-www-form-urlencoded` byte serialisation, which the query
      serialiser applies to every key and value: letters, digits and `*-._` are
      kept, a space becomes `+`, every other byte becomes `%XX`.

    Each has a decoder that inverts it. */
module Percent {
  import opened Bytes
  import opened Wrappers
  import Hex

  predicate IsAlphanumeric(b: int)
  {
    0x30 <= b <= 0x39 || 0x41 <= b <= 0x5A || 0x61 <= b <= 0x7A
  }

  /** True of the characters percent-encoded text is made of. */
  predicate IsPercentChar(c: char)
  {
    IsAlphanumeric(c as int) || c == '%'
  }

  /** True of the characters form-encoded text is made of. */
  predicate IsFormChar(c: char)
  {
    IsAlphanumeric(c as int) || c in "*-._+%"
  }

  /** Bytes the form serialiser keeps as they are. */
  predicate IsFormUnreserved(b: int)
  {
    IsAlphanumeric(b) || b == '*' as int || b == '-' as int || b == '.' as int || b == '_' as int
  }

  /** `%XX` with uppercase hexadecimal digits, high nibble first. */
  function Escape(b: uint8): (s: string)
    ensures |s| == 3 && s[0] == '%'
    ensures Hex.IsUpperHexDigit(s[1]) && Hex.IsUpperHexDigit(s[2])
    ensures forall i :: 1 <= i < 3 ==> IsAlphanumeric(s[i] as int)
    ensures Hex.DigitValue(s[1]) == Some(b / 16) && Hex.DigitValue(s[2]) == Some(b % 16)
  {
    Hex.DigitsReadBack(b / 16);
    Hex.DigitsReadBack(b % 16);
    ['%', Hex.UpperDigits[b / 16], Hex.UpperDigits[b % 16]]
  }

  /** One byte under `NON_ALPHANUMERIC`: an ASCII letter or digit as itself,
      any other byte as an uppercase escape. */
  function EncodeByte(b: uint8): (s: string)
    ensures 1 <= |s| <= 3
    ensures forall i :: 0 <= i < |s| ==> IsPercentChar(s[i])
    ensures |s| == 1 <==> IsAlphanumeric(b)
    ensures IsAlphanumeric(b) ==> s == [b as char]
    ensures !IsAlphanumeric(b) ==> s == Escape(b)
  {
    if IsAlphanumeric(b) then [b as char] else Escape(b)
  }

  /** `percent_encode(bs, NON_ALPHANUMERIC)`. */
  function Encode(bs: seq<uint8>): (s: string)
    ensures |bs| <= |s| <= 3 * |bs|
    ensures forall i :: 0 <= i < |s| ==> IsPercentChar(s[i])
  {
    if bs == [] then "" else EncodeByte(bs[0]) + Encode(bs[1..])
  }

  /** Bytes rendered one at a time by `f` and joined; both serialisers below
      have this shape. */
  function Concat(f: uint8 -> string, bs: seq<uint8>): string
  {
    if bs == [] then "" else f(bs[0]) + Concat(f, bs[1..])
  }

  lemma {:induction false} ConcatAppend(f: uint8 -> string, a: seq<uint8>, b: seq<uint8>)
    ensures Concat(f, a + b) == Concat(f, a) + Concat(f, b)
    decreases |a|
  {
    if a != [] {
      ConcatAppend(f, a[1..], b);
      assert (a + b)[0] == a[0] && (a + b)[1..] == a[1..] + b;
    } else {
      assert a + b == b;
    }
  }

  lemma {:induction false} EncodeIsConcat(bs: seq<uint8>)
    ensures Encode(bs) == Concat(EncodeByte, bs)
    decreases |bs|
  {
    if bs != [] {
      EncodeIsConcat(bs[1..]);
    }
  }

  /** The encoding works byte by byte: the encoding of a concatenation is the
      concatenation of the encodings. */
  lemma EncodeAppend(a: seq<uint8>, b: seq<uint8>)
    ensures Encode(a + b) == Encode(a) + Encode(b)
  {
    EncodeIsConcat(a + b);
    EncodeIsConcat(a);
    EncodeIsConcat(b);
    ConcatAppend(EncodeByte, a, b);
  }

  /** The encoding is as long as its input exactly when every byte is a
      letter or digit, that is, when nothing had to be escaped. */
  lemma {:induction false} EncodeKeepsLength(bs: seq<uint8>)
    ensures |Encode(bs)| == |bs| <==> forall i :: 0 <= i < |bs| ==> IsAlphanumeric(bs[i])
    decreases |bs|
  {
    if bs != [] {
      EncodeKeepsLength(bs[1..]);
      assert forall i :: 1 <= i < |bs| ==> bs[i] == bs[1..][i - 1];
    }
  }

  /** A byte in front is encoded on its own, ahead of the rest. */
  lemma EncodeCons(x: uint8, t: seq<uint8>)
    ensures Encode([x] + t) == EncodeByte(x) + Encode(t)
  {
    EncodeAppend([x], t);
    assert Encode([x]) == EncodeByte(x) + Encode([]);
  }

  /** Reads `%XX` (either case) back as one byte and any other ASCII character
      as its own byte; `None` on a stray `%` or a non-ASCII character. */
  function Decode(s: string): (r: Option<seq<uint8>>)
    decreases |s|
  {
    if s == [] then Some([])
    else if s[0] == '%' then
      if |s| < 3 then None
      else
        match (Hex.DigitValue(s[1]), Hex.DigitValue(s[2]), Decode(s[3..]))
        case (Some(h), Some(l), Some(rest)) => Some([h * 16 + l] + rest)
        case _ => None
    else if s[0] as int < 0x80 then
      match Decode(s[1..])
      case Some(rest) => Some([s[0] as int] + rest)
      case None => None
    else None
  }

  /** The two digits of an escape make up the escaped byte again. */
  lemma EscapeDigits(b: uint8, h: nat, l: nat)
    requires Hex.DigitValue(Escape(b)[1]) == Some(h) && Hex.DigitValue(Escape(b)[2]) == Some(l)
    ensures h * 16 + l == b
  {
    assert b / 16 * 16 + b % 16 == b;
  }

  /** Decoding reads an escape in front of `t` as its byte. */
  lemma DecodeEscape(b: uint8, t: string, rest: seq<uint8>)
    requires Decode(t) == Some(rest)
    ensures Decode(Escape(b) + t) == Some([b] + rest)
  {
    var s := Escape(b) + t;
    assert s[0] == '%' && s[1] == Escape(b)[1] && s[2] == Escape(b)[2] && s[3..] == t;
    EscapeDigits(b, b / 16, b % 16);
  }

  /** Decoding reads a plain ASCII character in front of `t` as its own byte. */
  lemma DecodePlain(c: char, t: string, rest: seq<uint8>)
    requires c != '%' && c as int < 0x80
    requires Decode(t) == Some(rest)
    ensures Decode([c] + t) == Some([c as int] + rest)
  {
    assert ([c] + t)[1..] == t;
  }

  /** Decoding reads the encoding of one byte in front of `t` as that byte. */
  lemma DecodeEncodeByte(b: uint8, t: string, rest: seq<uint8>)
    requires Decode(t) == Some(rest)
    ensures Decode(EncodeByte(b) + t) == Some([b] + rest)
  {
    if IsAlphanumeric(b) {
      DecodePlain(b as char, t, rest);
    } else {
      DecodeEscape(b, t, rest);
    }
  }

  /** Percent-decoding the encoding gives back the raw bytes. */
  lemma {:induction false} DecodeEncode(bs: seq<uint8>)
    ensures Decode(Encode(bs)) == Some(bs)
  {
    if bs != [] {
      DecodeEncode(bs[1..]);
      DecodeEncodeByte(bs[0], Encode(bs[1..]), bs[1..]);
      assert [bs[0]] + bs[1..] == bs;
    }
  }

  /** One byte under the form serialiser: an unreserved byte as itself, a
      space as `+`, any other byte as an uppercase escape. */
  function FormEncodeByte(b: uint8): (s: string)
    ensures 1 <= |s| <= 3
    ensures forall i :: 0 <= i < |s| ==> IsFormChar(s[i])
    ensures |s| == 1 <==> IsFormUnreserved(b) || b == 0x20
    ensures IsFormUnreserved(b) ==> s == [b as char]
    ensures b == 0x20 ==> s == "+"
    ensures !IsFormUnreserved(b) && b != 0x20 ==> s == Escape(b)
  {
    if IsFormUnreserved(b) then [b as char]
    else if b == 0x20 then "+"
    else Escape(b)
  }

  /** `form_urlencoded::byte_serialize` over raw bytes. */
  function FormEncodeBytes(bs: seq<uint8>): (s: string)
    ensures |bs| <= |s| <= 3 * |bs|
    ensures forall i :: 0 <= i < |s| ==> IsFormChar(s[i])
  {
    if bs == [] then "" else FormEncodeByte(bs[0]) + FormEncodeBytes(bs[1..])
  }

  lemma {:induction false} FormEncodeIsConcat(bs: seq<uint8>)
    ensures FormEncodeBytes(bs) == Concat(FormEncodeByte, bs)
    decreases |bs|
  {
    if bs != [] {
      FormEncodeIsConcat(bs[1..]);
    }
  }

  /** The form serialiser works byte by byte as well. */
  lemma FormEncodeAppend(a: seq<uint8>, b: seq<uint8>)
    ensures FormEncodeBytes(a + b) == FormEncodeBytes(a) + FormEncodeBytes(b)
  {
    FormEncodeIsConcat(a + b);
    FormEncodeIsConcat(a);
    FormEncodeIsConcat(b);
    ConcatAppend(FormEncodeByte, a, b);
  }

  /** The form encoding is as long as its input exactly when no byte had to
      be escaped: each is unreserved or a space. */
  lemma {:induction false} FormEncodeKeepsLength(bs: seq<uint8>)
    ensures |FormEncodeBytes(bs)| == |bs| <==> forall i :: 0 <= i < |bs| ==> IsFormUnreserved(bs[i]) || bs[i] == 0x20
    decreases |bs|
  {
    if bs != [] {
      FormEncodeKeepsLength(bs[1..]);
      assert forall i :: 1 <= i < |bs| ==> bs[i] == bs[1..][i - 1];
    }
  }

  /** A byte in front is serialised on its own, ahead of the rest. */
  lemma FormEncodeCons(x: uint8, t: seq<uint8>)
    ensures FormEncodeBytes([x] + t) == FormEncodeByte(x) + FormEncodeBytes(t)
  {
    FormEncodeAppend([x], t);
    assert FormEncodeBytes([x]) == FormEncodeByte(x) + FormEncodeBytes([]);
  }

  /** Form-encoding of a Rust `String`, i.e. of its UTF-8 bytes. */
  function FormEncode(s: string): (r: string)
    ensures forall i :: 0 <= i < |r| ==> IsFormChar(r[i])
  {
    FormEncodeBytes(Utf8(s))
  }

  /** The form decoder: `+` is a space, `%XX` (either case) one byte, any
      other ASCII character its own byte. */
  function FormDecode(s: string): (r: Option<seq<uint8>>)
    decreases |s|
  {
    if s == [] then Some([])
    else if s[0] == '%' then
      if |s| < 3 then None
      else
        match (Hex.DigitValue(s[1]), Hex.DigitValue(s[2]), FormDecode(s[3..]))
        case (Some(h), Some(l), Some(rest)) => Some([h * 16 + l] + rest)
        case _ => None
    else if s[0] as int < 0x80 then
      match FormDecode(s[1..])
      case Some(rest) => Some([if s[0] == '+' then 0x20 else s[0] as int] + rest)
      case None => None
    else None
  }

  lemma FormDecodeEscape(b: uint8, t: string, rest: seq<uint8>)
    requires FormDecode(t) == Some(rest)
    ensures FormDecode(Escape(b) + t) == Some([b] + rest)
  {
    var s := Escape(b) + t;
    assert s[0] == '%' && s[1] == Escape(b)[1] && s[2] == Escape(b)[2] && s[3..] == t;
    EscapeDigits(b, b / 16, b % 16);
  }

  /** The form decoder reads `+` as a space and any other plain ASCII character
      as its own byte. */
  lemma FormDecodePlain(c: char, t: string, rest: seq<uint8>)
    requires c != '%' && c as int < 0x80
    requires FormDecode(t) == Some(rest)
    ensures FormDecode([c] + t) == Some([if c == '+' then 0x20 else c as int] + rest)
  {
    assert ([c] + t)[1..] == t;
  }

  /** The form decoder reads the serialisation of one byte in front of `t` as that byte. */
  lemma FormDecodeEncodeByte(b: uint8, t: string, rest: seq<uint8>)
    requires FormDecode(t) == Some(rest)
    ensures FormDecode(FormEncodeByte(b) + t) == Some([b] + rest)
  {
    if IsFormUnreserved(b) {
      FormDecodePlain(b as char, t, rest);
    } else if b == 0x20 {
      FormDecodePlain('+', t, rest);
    } else {
      FormDecodeEscape(b, t, rest);
    }
  }

  /** Form-decoding the byte serialisation gives back the bytes. */
  lemma {:induction false} FormDecodeEncode(bs: seq<uint8>)
    ensures FormDecode(FormEncodeBytes(bs)) == Some(bs)
  {
    if bs != [] {
      FormDecodeEncode(bs[1..]);
      FormDecodeEncodeByte(bs[0], FormEncodeBytes(bs[1..]), bs[1..]);
      assert [bs[0]] + bs[1..] == bs;
    }
  }

  /** Text made only of characters the form serialiser keeps passes through unchanged. */
  lemma {:induction false} FormEncodeKeepsUnreserved(s: string)
    requires forall i :: 0 <= i < |s| ==> IsFormUnreserved(s[i] as int)
    ensures FormEncode(s) == s
  {
    if s != [] {
      var x: uint8 := s[0] as int;
      assert Utf8(s) == [x] + Utf8(s[1..]);
      FormEncodeCons(x, Utf8(s[1..]));
      assert FormEncodeByte(x) == [s[0]];
      FormEncodeKeepsUnreserved(s[1..]);
      assert [s[0]] + s[1..] == s;
    }
  }
}

=== FILE: pieces.dfy ===
/** The piece table of the `info` command (src/main.rs, `pieces.chunks(20)`):
    the `pieces` blob cut into 20-byte SHA-1 piece hashes, each printed as hex.

    The blob is not checked: a length that is not a multiple of 20 yields a
    short final hash rather than an error. */
module Pieces {
  import opened Bytes
  import opened Wrappers
  import opened Models
  import opened Slices
  import Hex

  const PieceHashLength: nat := 20

  /** The piece hashes in order: every one 20 bytes long except possibly the
      last, which is shorter, and together they are exactly `pieces`. */
  function PieceHashes(info: TorrentInfo): (hs: seq<seq<uint8>>)
    ensures |hs| == (|info.pieces| + PieceHashLength - 1) / PieceHashLength
    ensures forall i :: 0 <= i < |hs| - 1 ==> |hs[i]| == PieceHashLength
    ensures |hs| > 0 ==> 0 < |hs[|hs| - 1]| <= PieceHashLength
    ensures Flatten(hs) == info.pieces
  {
    ChunksFlatten(info.pieces, PieceHashLength);
    ChunksCount(info.pieces, PieceHashLength);
    Chunks(info.pieces, PieceHashLength)
  }

  /** Hash `i` is the 20-byte window of `pieces` starting at offset `20 * i`,
      cut short by the end of the blob. */
  lemma PieceHashAt(info: TorrentInfo, i: nat)
    requires i < |PieceHashes(info)|
    ensures PieceHashes(info)[i]
         == info.pieces[PieceHashLength * i .. Min(PieceHashLength * i + PieceHashLength, |info.pieces|)]
  {
    ChunkAt(info.pieces, PieceHashLength, i);
  }

  /** A table whose length is a multiple of 20 splits into exactly that many
      whole hashes; otherwise the last hash is short. */
  lemma WholeHashesIffMultiple(info: TorrentInfo)
    ensures |info.pieces| % PieceHashLength == 0
        <==> (forall i :: 0 <= i < |PieceHashes(info)| ==> |PieceHashes(info)[i]| == PieceHashLength)
  {
    var hs := PieceHashes(info);
    if |hs| > 0 {
      ChunkAt(info.pieces, PieceHashLength, |hs| - 1);
    }
  }

  /** One lowercase hexadecimal line per byte string, in order. */
  function HexLines(hs: seq<seq<uint8>>): (lines: seq<string>)
    ensures |lines| == |hs|
    ensures forall i :: 0 <= i < |hs| ==> Hex.Decode(lines[i]) == Some(hs[i]) && |lines[i]| == 2 * |hs[i]|
    ensures forall i, j :: 0 <= i < |lines| && 0 <= j < |lines[i]| ==> Hex.IsLowerHexDigit(lines[i][j])
  {
    var lines := seq(|hs|, i requires 0 <= i < |hs| => Hex.Encode(hs[i]));
    forall i | 0 <= i < |hs|
      ensures Hex.Decode(lines[i]) == Some(hs[i])
    {
      Hex.DecodeEncode(hs[i]);
    }
    lines
  }

  /** The printed lines: one lowercase hexadecimal rendering per piece hash, in
      order, each reading back as its hash. */
  function PieceHashLines(info: TorrentInfo): (lines: seq<string>)
    ensures |lines| == |PieceHashes(info)|
    ensures forall i :: 0 <= i < |lines| ==> Hex.Decode(lines[i]) == Some(PieceHashes(info)[i])
    ensures forall i :: 0 <= i < |lines| - 1 ==> |lines[i]| == 2 * PieceHashLength
    ensures forall i, j :: 0 <= i < |lines| && 0 <= j < |lines[i]| ==> Hex.IsLowerHexDigit(lines[i][j])
  {
    HexLines(PieceHashes(info))
  }
}

=== FILE: query.dfy ===
/** URL query strings: `key=value` pairs joined with `&`, and the reading a
    tracker makes of them (split at every `&`, then at the first `=`).

    The program only ever writes query strings; the reader is the reference
    against which the written URL is checked. */
module Query {

  /** The pieces of `s` between occurrences of `sep` (`str::split`): always at
      least one piece, and `sep` occurs in none of them. */
  function Split(s: string, sep: char): (parts: seq<string>)
    ensures |parts| >= 1
    ensures forall i :: 0 <= i < |parts| ==> sep !in parts[i]
  {
    if s == [] then [""]
    else
      var rest := Split(s[1..], sep);
      if s[0] == sep then [""] + rest else [[s[0]] + rest[0]] + rest[1..]
  }

  /** `parts` with one `sep` between neighbours. */
  function Join(parts: seq<string>, sep: char): string
  {
    if parts == [] then ""
    else if |parts| == 1 then parts[0]
    else parts[0] + [sep] + Join(parts[1..], sep)
  }

  lemma {:induction false} SplitPrefix(p: string, sep: char, rest: string)
    requires sep !in p
    ensures Split(p + [sep] + rest, sep) == [p] + Split(rest, sep)
    ensures Split(p, sep) == [p]
    decreases |p|
  {
    if p != [] {
      SplitPrefix(p[1..], sep, rest);
      assert (p + [sep] + rest)[1..] == p[1..] + [sep] + rest;
      assert p[0] != sep && (p + [sep] + rest)[0] == p[0];
      assert [p[0]] + p[1..] == p;
    }
  }

  /** Splitting a join gives back the parts, as long as none contains the separator. */
  lemma {:induction false} SplitJoin(parts: seq<string>, sep: char)
    requires |parts| >= 1
    requires forall i :: 0 <= i < |parts| ==> sep !in parts[i]
    ensures Split(Join(parts, sep), sep) == parts
  {
    if |parts| == 1 {
      SplitPrefix(parts[0], sep, "");
    } else {
      SplitJoin(parts[1..], sep);
      SplitPrefix(parts[0], sep, Join(parts[1..], sep));
    }
  }

  /** `s` cut at the first `c`: the text before it and the text after it; with
      no `c` the whole text and an empty rest. */
  function SplitAtFirst(s: string, c: char): (r: (string, string))
    ensures c !in r.0
  {
    if s == [] then ("", "")
    else if s[0] == c then ("", s[1..])
    else
      var r := SplitAtFirst(s[1..], c);
      ([s[0]] + r.0, r.1)
  }

  lemma {:induction false} SplitAtFirstOf(k: string, c: char, v: string)
    requires c !in k
    ensures SplitAtFirst(k + [c] + v, c) == (k, v)
    decreases |k|
  {
    if k != [] {
      SplitAtFirstOf(k[1..], c, v);
      assert (k + [c] + v)[1..] == k[1..] + [c] + v;
      assert k[0] != c && (k + [c] + v)[0] == k[0];
      assert [k[0]] + k[1..] == k;
    }
  }

  /** The query text for `pairs`, in order: `k1=v1&k2=v2&...`. */
  function Encode(pairs: seq<(string, string)>): string
  {
    Join(seq(|pairs|, i requires 0 <= i < |pairs| => pairs[i].0 + "=" + pairs[i].1), '&')
  }

  lemma {:induction false} JoinSnoc(parts: seq<string>, sep: char, last: string)
    requires |parts| >= 1
    ensures Join(parts + [last], sep) == Join(parts, sep) + [sep] + last
    decreases |parts|
  {
    if |parts| > 1 {
      assert (parts + [last])[1..] == parts[1..] + [last];
      JoinSnoc(parts[1..], sep, last);
    }
  }

  /** Appending one pair appends `&key=value` to the text. */
  lemma EncodeSnoc(pairs: seq<(string, string)>, k: string, v: string)
    requires |pairs| >= 1
    ensures Encode(pairs + [(k, v)]) == Encode(pairs) + "&" + k + "=" + v
  {
    var texts := seq(|pairs|, i requires 0 <= i < |pairs| => pairs[i].0 + "=" + pairs[i].1);
    var all := pairs + [(k, v)];
    var texts' := seq(|all|, i requires 0 <= i < |all| => all[i].0 + "=" + all[i].1);
    assert texts' == texts + [k + "=" + v];
    JoinSnoc(texts, '&', k + "=" + v);
  }

  /** The pairs a reader sees in query text. */
  function Parse(q: string): (pairs: seq<(string, string)>)
    ensures |pairs| >= 1
  {
    var parts := Split(q, '&');
    seq(|parts|, i requires 0 <= i < |parts| => SplitAtFirst(parts[i], '='))
  }

  /** Keys and values that a reader can take apart again. */
  predicate Separable(pairs: seq<(string, string)>)
  {
    forall i :: 0 <= i < |pairs| ==> '&' !in pairs[i].0 && '=' !in pairs[i].0 && '&' !in pairs[i].1
  }

  /** Reading the encoding of separable pairs gives back the same pairs in the same order. */
  lemma ParseEncode(pairs: seq<(string, string)>)
    requires |pairs| >= 1
    requires Separable(pairs)
    ensures Parse(Encode(pairs)) == pairs
  {
    var texts := seq(|pairs|, i requires 0 <= i < |pairs| => pairs[i].0 + "=" + pairs[i].1);
    SplitJoin(texts, '&');
    forall i | 0 <= i < |pairs|
      ensures SplitAtFirst(texts[i], '=') == pairs[i]
    {
      SplitAtFirstOf(pairs[i].0, '=', pairs[i].1);
    }
  }

  /** What a reader makes of `base?query`: cutting at the first `?` gives back
      `base`, and the query reads back as the pairs it encodes. */
  lemma ReadUrl(base: string, pairs: seq<(string, string)>)
    requires '?' !in base
    requires |pairs| >= 1 && Separable(pairs)
    ensures SplitAtFirst(base + "?" + Encode(pairs), '?') == (base, Encode(pairs))
    ensures Parse(SplitAtFirst(base + "?" + Encode(pairs), '?').1) == pairs
  {
    SplitAtFirstOf(base, '?', Encode(pairs));
    ParseEncode(pairs);
  }
}

=== FILE: slices.dfy ===
/** Rust's slice iterators `chunks(k)` and `chunks_exact(k)`, as functions from a
    sequence to the sequence of pieces the iterator yields.

    `chunks` yields a short final piece when the length is not a multiple of `k`;
    `chunks_exact` drops that remainder instead. */
module Slices {

  /** Concatenation of a sequence of sequences. */
  function Flatten<T>(ss: seq<seq<T>>): seq<T>
  {
    if ss == [] then [] else ss[0] + Flatten(ss[1..])
  }

  function Min(a: int, b: int): int
  {
    if a <= b then a else b
  }

  /** `s.chunks(k)`: consecutive pieces of length `k`, the last one possibly
      shorter; none when `s` is empty. */
  function Chunks<T>(s: seq<T>, k: nat): (cs: seq<seq<T>>)
    requires k > 0
    ensures |cs| == 0 <==> |s| == 0
    ensures forall i :: 0 <= i < |cs| ==> 0 < |cs[i]| <= k
    ensures forall i :: 0 <= i < |cs| - 1 ==> |cs[i]| == k
    decreases |s|
  {
    if |s| == 0 then []
    else if |s| <= k then [s]
    else [s[..k]] + Chunks(s[k..], k)
  }

  /** The number of pieces of `s.chunks(k)` is the least `n` with `n * k >= |s|`. */
  lemma {:induction false} ChunksCount<T>(s: seq<T>, k: nat)
    requires k > 0
    ensures (|Chunks(s, k)| - 1) * k < |s| <= |Chunks(s, k)| * k
    decreases |s|
  {
    if |s| > k {
      ChunksCount(s[k..], k);
      MulSucc(|Chunks(s[k..], k)|, k);
    }
  }

  lemma MulSucc(n: int, k: int)
    ensures (n + 1) * k == n * k + k
  {
  }

  /** `i * k` as `i` repeated additions of `k`, so that the proofs about
      piece positions stay within linear arithmetic. */
  function Offset(i: nat, k: nat): nat
  {
    if i == 0 then 0 else Offset(i - 1, k) + k
  }

  lemma {:induction false} OffsetIsProduct(i: nat, k: nat)
    ensures Offset(i, k) == i * k
  {
    if i > 0 {
      OffsetIsProduct(i - 1, k);
      MulSucc(i - 1, k);
    }
  }

  /** A window of `s[k..]` is the window of `s` shifted by `k`. */
  lemma SliceOfSuffix<T>(s: seq<T>, k: nat, a: nat, b: nat)
    requires k <= |s| && a <= b <= |s| - k
    ensures s[k..][a..b] == s[a + k .. b + k]
  {
  }

  lemma {:induction false} ChunkAtOffset<T>(s: seq<T>, k: nat, i: nat)
    requires k > 0
    requires i < |Chunks(s, k)|
    ensures Offset(i, k) < |s|
    ensures Chunks(s, k)[i] == s[Offset(i, k) .. Min(Offset(i, k) + k, |s|)]
    decreases i
  {
    if i > 0 {
      assert |s| > k && Chunks(s, k) == [s[..k]] + Chunks(s[k..], k);
      var t := s[k..];
      ChunkAtOffset(t, k, i - 1);
      var a := Offset(i - 1, k);
      var b := Min(a + k, |t|);
      SliceOfSuffix(s, k, a, b);
      assert b + k == Min(Offset(i, k) + k, |s|);
    }
  }

  /** Piece `i` of `s.chunks(k)` is the window of `s` starting at `i * k`. */
  lemma ChunkAt<T>(s: seq<T>, k: nat, i: nat)
    requires k > 0
    requires i < |Chunks(s, k)|
    ensures i * k < |s|
    ensures Chunks(s, k)[i] == s[i * k .. Min(i * k + k, |s|)]
  {
    ChunkAtOffset(s, k, i);
    OffsetIsProduct(i, k);
  }

  /** The pieces of `s.chunks(k)` put back together give `s`. */
  lemma {:induction false} ChunksFlatten<T>(s: seq<T>, k: nat)
    requires k > 0
    ensures Flatten(Chunks(s, k)) == s
    decreases |s|
  {
    if |s| == 0 {
    } else if |s| <= k {
      assert Flatten(Chunks(s, k)) == s + Flatten([]);
    } else {
      ChunksFlatten(s[k..], k);
      var cs := Chunks(s, k);
      assert cs[1..] == Chunks(s[k..], k);
      assert s == s[..k] + s[k..];
    }
  }

  /** `s.chunks_exact(k)`: only the full pieces of length `k`; a remainder
      shorter than `k` is dropped. */
  function ChunksExact<T>(s: seq<T>, k: nat): (cs: seq<seq<T>>)
    requires k > 0
    ensures |cs| == 0 <==> |s| < k
    ensures forall i :: 0 <= i < |cs| ==> |cs[i]| == k
    decreases |s|
  {
    if |s| < k then [] else [s[..k]] + ChunksExact(s[k..], k)
  }

  /** The number of pieces of `s.chunks_exact(k)` is `|s|` divided by `k`,
      rounded down. */
  lemma {:induction false} ChunksExactCount<T>(s: seq<T>, k: nat)
    requires k > 0
    ensures |ChunksExact(s, k)| * k <= |s| < |ChunksExact(s, k)| * k + k
    decreases |s|
  {
    if |s| >= k {
      ChunksExactCount(s[k..], k);
      MulSucc(|ChunksExact(s[k..], k)|, k);
    }
  }

  lemma {:induction false} ChunkExactAtOffset<T>(s: seq<T>, k: nat, i: nat)
    requires k > 0
    requires i < |ChunksExact(s, k)|
    ensures Offset(i, k) + k <= |s|
    ensures ChunksExact(s, k)[i] == s[Offset(i, k) .. Offset(i, k) + k]
    decreases i
  {
    if i > 0 {
      assert |s| >= k && ChunksExact(s, k) == [s[..k]] + ChunksExact(s[k..], k);
      var t := s[k..];
      ChunkExactAtOffset(t, k, i - 1);
      var a := Offset(i - 1, k);
      SliceOfSuffix(s, k, a, a + k);
    }
  }

  /** Piece `i` of `s.chunks_exact(k)` is the window `s[i * k .. i * k + k]`. */
  lemma ChunkExactAt<T>(s: seq<T>, k: nat, i: nat)
    requires k > 0
    requires i < |ChunksExact(s, k)|
    ensures i * k + k <= |s|
    ensures ChunksExact(s, k)[i] == s[i * k .. i * k + k]
  {
    ChunkExactAtOffset(s, k, i);
    OffsetIsProduct(i, k);
  }

  /** `chunks_exact` is `chunks` of the longest prefix whose length is a multiple of `k`. */
  lemma {:induction false} ChunksExactIsChunksOfPrefix<T>(s: seq<T>, k: nat)
    requires k > 0
    ensures |ChunksExact(s, k)| * k <= |s| && ChunksExact(s, k) == Chunks(s[..|ChunksExact(s, k)| * k], k)
    decreases |s|
  {
    if |s| >= k {
      var n' := |ChunksExact(s[k..], k)|;
      ChunksExactIsChunksOfPrefix(s[k..], k);
      ChunksExactCount(s[k..], k);
      MulSucc(n', k);
      var p := s[..n' * k + k];
      assert |ChunksExact(s, k)| * k == n' * k + k;
      if n' == 0 {
        assert Chunks(p, k) == [s[..k]];
      } else {
        assert p[k..] == s[k..][..n' * k];
        assert p[..k] == s[..k];
      }
    }
  }

  /** The pieces of `s.chunks_exact(k)` put back together give `s` without its
      remainder. */
  lemma {:induction false} ChunksExactFlatten<T>(s: seq<T>, k: nat)
    requires k > 0
    ensures |ChunksExact(s, k)| * k <= |s| && Flatten(ChunksExact(s, k)) == s[..|ChunksExact(s, k)| * k]
  {
    ChunksExactIsChunksOfPrefix(s, k);
    ChunksFlatten(s[..|ChunksExact(s, k)| * k], k);
  }
}

=== FILE: tracker.dfy ===
/** The announce request of the `peers` command (src/main.rs): the request
    record derived from the metainfo, its query-string serialisation, and the
    announce URL that carries it together with the percent-encoded info hash. */
module Tracker {
  import opened Bytes
  import opened Wrappers
  import opened Models
  import opened InfoHash
  import Percent
  import Decimal
  import Query

  /** The fixed 20-character peer id the announce request sends. */
  const AnnouncePeerId: string := "00112233445566778899"
  /** The listening port the announce request reports. */
  const AnnouncePort: uint16 := 6881

  /** The request derived from a metainfo file: nothing uploaded or downloaded
      yet, the whole file left, and the compact peer list asked for. */
  function BuildRequest(file: TorrentFile): (req: TrackerRequest)
    ensures req.left == file.info.length
    ensures req.uploaded == 0 && req.downloaded == 0
    ensures req.compact == 1 && req.port == AnnouncePort
    ensures req.peerId == AnnouncePeerId && |req.peerId| == 20
  {
    TrackerRequest(AnnouncePeerId, AnnouncePort, 0, 0, file.info.length, 1)
  }

  /** The request's field names in declaration order: the query keys. */
  const FieldNames: seq<string> := ["peer_id", "port", "uploaded", "downloaded", "left", "compact"]

  /** The request's field values as text, in declaration order: the peer id as
      it is, integers in decimal. */
  function FieldValues(req: TrackerRequest): (vs: seq<string>)
    ensures |vs| == |FieldNames|
  {
    [ req.peerId,
      Decimal.Render(req.port),
      Decimal.Render(req.uploaded),
      Decimal.Render(req.downloaded),
      Decimal.Render(req.left),
      Decimal.Render(req.compact) ]
  }

  /** Each field value reads back as the field: the peer id as it is, every
      integer through its decimal reading. */
  lemma FieldValuesReadBack(req: TrackerRequest)
    ensures var vs := FieldValues(req);
      && vs[0] == req.peerId
      && Decimal.Parse(vs[1]) == Some(req.port as nat)
      && Decimal.Parse(vs[2]) == Some(req.uploaded as nat)
      && Decimal.Parse(vs[3]) == Some(req.downloaded as nat)
      && Decimal.Parse(vs[4]) == Some(req.left as nat)
      && Decimal.Parse(vs[5]) == Some(req.compact as nat)
  {
    Decimal.ParseRender(req.port);
    Decimal.ParseRender(req.uploaded);
    Decimal.ParseRender(req.downloaded);
    Decimal.ParseRender(req.left);
    Decimal.ParseRender(req.compact);
  }

  /** The query string of a request: `peer_id=...&port=...&uploaded=...&downloaded=...&left=...&compact=...`,
      every value form-encoded. The keys are written as they are: they consist
      of letters and `_`, which form-encoding keeps (`FieldNamePassesThrough`). */
  function Params(req: TrackerRequest): string
  {
    var vs := FieldValues(req);
    Query.Encode(seq(|FieldNames|, i requires 0 <= i < |FieldNames| => (FieldNames[i], Percent.FormEncode(vs[i]))))
  }

  /** The announce URL: tracker URL, `?`, the request's query string, then the
      percent-encoded raw info hash as `info_hash`. */
  function AnnounceUrl(file: TorrentFile, ser: Serializer, sha1: Sha1): string
  {
    UrlOf(file.announce, Params(BuildRequest(file)), UrlForm(file, ser, sha1))
  }

  /** The announce URL laid out from its parts: the tracker URL, a `?`, the
      query string, then `&info_hash=` and the encoded info hash. */
  function UrlOf(announce: string, params: string, infoHash: string): string
  {
    announce + "?" + params + "&info_hash=" + infoHash
  }

  lemma FormEncodeDecimal(n: nat)
    ensures Percent.FormEncode(Decimal.Render(n)) == Decimal.Render(n)
  {
    Percent.FormEncodeKeepsUnreserved(Decimal.Render(n));
  }

  /** The request's pairs as the serialiser writes them, with every integer
      value in its decimal form (which form-encoding leaves as it is). */
  function EncodedPairs(req: TrackerRequest): seq<(string, string)>
  {
    [ ("peer_id", Percent.FormEncode(req.peerId)),
      ("port", Decimal.Render(req.port)),
      ("uploaded", Decimal.Render(req.uploaded)),
      ("downloaded", Decimal.Render(req.downloaded)),
      ("left", Decimal.Render(req.left)),
      ("compact", Decimal.Render(req.compact)) ]
  }

  /** After form-encoding only the peer id can change: decimal integers pass through. */
  lemma EncodedRequestPairs(req: TrackerRequest)
    ensures var vs := FieldValues(req);
      seq(|FieldNames|, i requires 0 <= i < |FieldNames| => (FieldNames[i], Percent.FormEncode(vs[i])))
         == EncodedPairs(req)
  {
    var vs := FieldValues(req);
    assert vs[1] == Decimal.Render(req.port);
    FormEncodeDecimal(req.port);
    assert vs[2] == Decimal.Render(req.uploaded);
    FormEncodeDecimal(req.uploaded);
    assert vs[3] == Decimal.Render(req.downloaded);
    FormEncodeDecimal(req.downloaded);
    assert vs[4] == Decimal.Render(req.left);
    FormEncodeDecimal(req.left);
    assert vs[5] == Decimal.Render(req.compact);
    FormEncodeDecimal(req.compact);
    KeyedValues(vs);
  }

  /** Pairing the keys with six values, of which the last five form-encode to
      themselves. */
  lemma KeyedValues(vs: seq<string>)
    requires |vs| == |FieldNames|
    requires Percent.FormEncode(vs[1]) == vs[1] && Percent.FormEncode(vs[2]) == vs[2]
    requires Percent.FormEncode(vs[3]) == vs[3] && Percent.FormEncode(vs[4]) == vs[4]
    requires Percent.FormEncode(vs[5]) == vs[5]
    ensures seq(|FieldNames|, i requires 0 <= i < |FieldNames| => (FieldNames[i], Percent.FormEncode(vs[i])))
         == [ ("peer_id", Percent.FormEncode(vs[0])), ("port", vs[1]), ("uploaded", vs[2]),
              ("downloaded", vs[3]), ("left", vs[4]), ("compact", vs[5]) ]
  {
  }

  /** Every value in a request's query string reads back as the field it came
      from: the peer id as its UTF-8 bytes, each integer as its value. */
  lemma ParamsReadBack(req: TrackerRequest)
    ensures var pairs := Query.Parse(Params(req));
      && |pairs| == 6
      && pairs[0].0 == "peer_id" && Percent.FormDecode(pairs[0].1) == Some(Utf8(req.peerId))
      && pairs[1] == ("port", Decimal.Render(req.port))
      && pairs[2] == ("uploaded", Decimal.Render(req.uploaded))
      && pairs[3] == ("downloaded", Decimal.Render(req.downloaded))
      && pairs[4] == ("left", Decimal.Render(req.left))
      && pairs[5] == ("compact", Decimal.Render(req.compact))
  {
    var enc := EncodedPairs(req);
    assert Params(req) == Query.Encode(enc) by {
      EncodedRequestPairs(req);
    }
    assert Query.Parse(Query.Encode(enc)) == enc by {
      EncodedPairsSeparable(req);
      Query.ParseEncode(enc);
    }
    Percent.FormDecodeEncode(Utf8(req.peerId));
  }

  lemma EncodedPairsSeparable(req: TrackerRequest)
    ensures Query.Separable(EncodedPairs(req))
  {
    var enc := EncodedPairs(req);
    forall i | 0 <= i < |enc|
      ensures '&' !in enc[i].0 && '=' !in enc[i].0 && '&' !in enc[i].1
    {
      assert enc[i].0 == FieldNames[i];
      FieldNameSeparable(i);
      var v := enc[i].1;
      if i == 0 {
        assert forall j :: 0 <= j < |v| ==> Percent.IsFormChar(v[j]);
      }
      assert forall j :: 0 <= j < |v| ==> v[j] != '&';
    }
  }

  /** The characters the field names are made of: lowercase letters and `_`. */
  predicate IsKeyChar(c: char)
  {
    'a' <= c <= 'z' || c == '_'
  }

  lemma FieldNameChars(i: nat)
    requires i < |FieldNames|
    ensures forall j :: 0 <= j < |FieldNames[i]| ==> IsKeyChar(FieldNames[i][j])
  {
  }

  lemma FieldNameSeparable(i: nat)
    requires i < |FieldNames|
    ensures '&' !in FieldNames[i] && '=' !in FieldNames[i]
  {
    FieldNameChars(i);
  }

  /** The field names contain only characters the form serialiser keeps. */
  lemma FieldNamePassesThrough(k: string)
    requires k in FieldNames
    ensures Percent.FormEncode(k) == k
  {
    var i :| 0 <= i < |FieldNames| && FieldNames[i] == k;
    FieldNameChars(i);
    Percent.FormEncodeKeepsUnreserved(k);
  }

  /** The query pairs of the announce request for a file of `length` bytes. */
  function AnnouncePairs(length: uint64): seq<(string, string)>
  {
    [ ("peer_id", AnnouncePeerId),
      ("port", "6881"),
      ("uploaded", "0"),
      ("downloaded", "0"),
      ("left", Decimal.Render(length)),
      ("compact", "1") ]
  }

  lemma AnnounceParams(file: TorrentFile)
    ensures Params(BuildRequest(file)) == Query.Encode(AnnouncePairs(file.info.length))
  {
    var req := BuildRequest(file);
    var shaped := EncodedPairs(req);
    assert Params(req) == Query.Encode(shaped) by {
      EncodedRequestPairs(req);
    }
    assert shaped == AnnouncePairs(file.info.length) by {
      AnnouncePeerIdPassesThrough();
      RenderAnnouncePort();
      assert Decimal.Render(0) == "0" && Decimal.Render(1) == "1";
    }
  }

  /** The fixed peer id consists of digits only and is written as it is. */
  lemma AnnouncePeerIdPassesThrough()
    ensures Percent.FormEncode(AnnouncePeerId) == AnnouncePeerId
  {
    Percent.FormEncodeKeepsUnreserved(AnnouncePeerId);
  }

  lemma RenderAnnouncePort()
    ensures Decimal.Render(AnnouncePort) == "6881"
  {
    assert Decimal.Render(6) == "6";
    assert Decimal.Render(68) == "68";
    assert Decimal.Render(688) == "688";
  }

  lemma AnnouncePairsSeparable(length: uint64, pct: string)
    requires forall i :: 0 <= i < |pct| ==> Percent.IsPercentChar(pct[i])
    ensures Query.Separable(AnnouncePairs(length) + [("info_hash", pct)])
  {
    var all := AnnouncePairs(length) + [("info_hash", pct)];
    forall i | 0 <= i < |all|
      ensures '&' !in all[i].0 && '=' !in all[i].0 && '&' !in all[i].1
    {
      if i == 6 {
        assert forall j :: 0 <= j < |pct| ==> pct[j] != '&';
      } else if i == 4 {
        var d := Decimal.Render(length);
        assert forall j :: 0 <= j < |d| ==> d[j] != '&';
      }
    }
  }

  /** The info hash rides on the query string as one more pair: a URL laid out
      from encoded pairs is the URL of those pairs with `info_hash` appended. */
  lemma UrlOfShape(announce: string, pairs: seq<(string, string)>, infoHash: string)
    requires |pairs| >= 1
    ensures UrlOf(announce, Query.Encode(pairs), infoHash)
         == announce + "?" + Query.Encode(pairs + [("info_hash", infoHash)])
  {
    Query.EncodeSnoc(pairs, "info_hash", infoHash);
  }

  /** What a tracker reads from the announce URL of a file whose tracker URL has
      no query of its own: the request's fields in order, then the info hash;
      `left` is the file's length and `info_hash` decodes to the raw digest. */
  lemma AnnounceUrlReadBack(file: TorrentFile, ser: Serializer, sha1: Sha1)
    requires '?' !in file.announce
    ensures var cut := Query.SplitAtFirst(AnnounceUrl(file, ser, sha1), '?');
      var pairs := Query.Parse(cut.1);
      && cut.0 == file.announce
      && pairs == AnnouncePairs(file.info.length) + [("info_hash", UrlForm(file, ser, sha1))]
      && Decimal.Parse(pairs[4].1) == Some(file.info.length as nat)
      && Percent.Decode(pairs[6].1) == Some(Raw(file, ser, sha1))
  {
    var pct := UrlForm(file, ser, sha1);
    var all := AnnouncePairs(file.info.length) + [("info_hash", pct)];
    AnnounceUrlShape(file, ser, sha1);
    AnnouncePairsSeparable(file.info.length, pct);
    Query.ReadUrl(file.announce, all);
    AnnounceValues(file.info.length, pct);
    Decimal.ParseRender(file.info.length);
  }

  lemma AnnounceValues(length: uint64, infoHash: string)
    ensures var all := AnnouncePairs(length) + [("info_hash", infoHash)];
      |all| == 7 && all[4].1 == Decimal.Render(length) && all[6].1 == infoHash
  {
  }

  /** The announce URL is the tracker URL, `?`, and the announce pairs with the info hash appended. */
  lemma AnnounceUrlShape(file: TorrentFile, ser: Serializer, sha1: Sha1)
    ensures AnnounceUrl(file, ser, sha1)
         == file.announce + "?" + Query.Encode(AnnouncePairs(file.info.length) + [("info_hash", UrlForm(file, ser, sha1))])
  {
    var pct := UrlForm(file, ser, sha1);
    var enc := AnnouncePairs(file.info.length);
    AnnounceParams(file);
    UrlOfShape(file.announce, enc, pct);
  }
}

=== FILE: wrappers.dfy ===
/** The failure-carrying datatypes the model is written with: `Option` for
    Rust's `Option`, `Result` for an operation that can fail with an error. */
module Wrappers {

  datatype Option<+T> = None | Some(value: T)

  datatype Result<+T, +E> = Ok(value: T) | Err(error: E)
}
